=== FILE: README.md ===
# QPOS adapter model

This project models the adapter layer of a demonstration app for a Bluetooth
card-reading POS terminal. The adapter has two cooperating, callback-driven
parts:

- `PayologyPOSBluetoothFinder` runs a single-shot Bluetooth scan. It filters
  reported names by the `"MPOS"` prefix, keeps a `didFoundDevice` flag, and
  notifies its delegate.
- `PayologyPOSManager` owns the finder. It holds `hasConnectedDevice`, whose
  setter mirrors the value into the finder's flag. It exposes two status values,
  `bluetoothStatus` and `tradeStatus`, and answers the terminal SDK's callbacks.
  It also serialises a trade request into SDK calls, including the amount
  string built by `getAmountString`.

The model assumes that the manager's entry points, the SDK's callbacks and the
scan timeout never run concurrently. Which queue the SDK calls back on is
vendor code outside this model. Each entry point is therefore modelled as a
pure step: it takes a state and an input and returns the new
state plus the SDK calls it made, in order.

Modules:

- `Sdk`: the vendor enumerations, the `Command` trace entries, and
  `WellFormed`, the call protocol every trace keeps.
- `Amount`: `getAmountString`. It is modelled as `%.2f` on a whole number of
  cents, followed by removal of every non-digit character.
- `Finder`: the finder. Each operation yields an `Effect` sequence of SDK calls
  and delegate notices.
- `Manager`: the manager. `Deliver` replays the finder's effects and re-enters
  the manager synchronously on each notice, the way the delegate calls do. For
  example, a matching name leads to `didStopScanning(true)`, then
  `didFindPOSDeviceName`, then `connectBluetoothDevice`, and the status ends at
  `connectingDevice`. `Handle` dispatches every entry point and callback as an
  `Event`, and `Run` folds `Handle` over a sequence of events.
- `System`: run-level properties and scenarios.

The SDK's optional `POSInstance?` is modelled by `Manager.posInstance`. When it
is false, every call on the terminal service is skipped while the status
assignments still happen. The scan timeout is an explicit event,
`ScanTimeoutFired`. It may arrive at any point, as the deferred closure can.

Behaviour of the code worth stating, which the model follows:

- `startTrade` does not check `hasConnectedDevice`, and it does not reset
  `tradeStatus`.
- A chip (`ICC`) trade result only sets the status. No EMV-application command
  is issued.
- `onRequestOnlineProcess` sends no reply to the terminal.
- The timeout closure always stops the scan, even after a device was found.
  Only the "not found" notice depends on the flag.
- `startScan` never clears `didFoundDevice`. A found device whose connection
  failed therefore silences the "not found" notice of every later scan, until a
  disconnection lowers the flag. `System.StaleFlagSilencesEveryLaterTimeout`
  states this over any run of events without a disconnection, and
  `System.ConnectionFailureSilencesLaterScans` walks through the first two
  scans from a new manager.
- Trade events always overwrite `tradeStatus`, even after a terminal status.

## Model

| member | source | states |
|---|---|---|
| Amount.Decimal | QPOSTestFramework/QPOSTestFramework/QPOSModels/PayologyPOSManager.swift:149 | the integer part `%.2f` prints: non-empty, digits only, no leading zero |
| Amount.TwoDigits | QPOSTestFramework/QPOSTestFramework/QPOSModels/PayologyPOSManager.swift:149 | the two fractional digits `%.2f` prints: exactly two digit characters |
| Amount.FormatFixed2 | QPOSTestFramework/QPOSTestFramework/QPOSModels/PayologyPOSManager.swift:149 | `%.2f` of the amount: at least four characters, a leading '-' exactly when the amount is negative, then the whole units of the absolute amount in decimal, then a '.' and the two hundredths digits |
| Amount.DigitsOnly | QPOSTestFramework/QPOSTestFramework/QPOSModels/PayologyPOSManager.swift:152-153 | removing every non-digit leaves only digits and never lengthens the string; a single digit is kept and a single non-digit dropped, which with `DigitsOnlyConcat` fixes the result as the digits of the input in order |
| Amount.StripFormatted | QPOSTestFramework/QPOSTestFramework/QPOSModels/PayologyPOSManager.swift:149-153 | stripping the non-digits from the `%.2f` text leaves exactly the whole units followed by the two hundredths digits: the sign and the '.' are the only characters removed |
| Amount.AmountString | QPOSTestFramework/QPOSTestFramework/QPOSModels/PayologyPOSManager.swift:146-154 | the result is all digits, at least three long, and equals the whole units of `abs(c)` followed by exactly two digits of `abs(c) % 100` |
| Amount.AmountStringDenotesCents | QPOSTestFramework/QPOSTestFramework/QPOSModels/PayologyPOSManager.swift:146-154 | reading the amount string back in base ten gives the amount in cents with its sign dropped |
| Amount.AmountStringIgnoresSign | QPOSTestFramework/QPOSTestFramework/QPOSModels/PayologyPOSManager.swift:149-153 | a negative amount gives the same string as its absolute value, because the minus sign is stripped |
| Amount.AmountStringInjective | QPOSTestFramework/QPOSTestFramework/QPOSModels/PayologyPOSManager.swift:146-154 | distinct non-negative amounts give distinct strings |
| Amount.AmountStringExamples | QPOSTestFramework/QPOSTestFramework/QPOSModels/PayologyPOSManager.swift:146-154 | 10.00 gives "1000", 9.50 gives "950", 0.07 and -0.07 give "007" |
| Finder.Truncate | QPOSTestFramework/QPOSTestFramework/QPOSModels/PayologyPOSBluetoothFinder.swift:33 | `Int(interval)` truncates toward zero: the result is within one of the interval, on the interval's side of zero |
| Finder.IsPOSDeviceName | QPOSTestFramework/QPOSTestFramework/QPOSModels/PayologyPOSBluetoothFinder.swift:50-54 | a name qualifies iff "MPOS" is a prefix of it |
| Finder.StopScan | QPOSTestFramework/QPOSTestFramework/QPOSModels/PayologyPOSBluetoothFinder.swift:45-48 | stops the SDK scan, then unregisters the delegate; flag unchanged; no notice |
| Finder.FinishScan | QPOSTestFramework/QPOSTestFramework/QPOSModels/PayologyPOSBluetoothFinder.swift:74-76 | the SDK's end-of-scan callback makes the same two calls as a stop and leaves the flag unchanged |
| Finder.StartScan | QPOSTestFramework/QPOSTestFramework/QPOSModels/PayologyPOSBluetoothFinder.swift:31-35 | registers the delegate, scans for the truncated interval, then notifies "started"; the flag is not reset |
| Finder.Timeout | QPOSTestFramework/QPOSTestFramework/QPOSModels/PayologyPOSBluetoothFinder.swift:37-42 | the fired timeout always begins with the two stop calls; it has exactly two effects when the flag is raised and three otherwise; it notifies "stopped, not found" iff the flag is down; it never notifies "found" or a name |
| Finder.OnBluetoothName | QPOSTestFramework/QPOSTestFramework/QPOSModels/PayologyPOSBluetoothFinder.swift:60-72 | a nil or non-POS name changes nothing and emits nothing; a POS name stops the scan, raises the flag, then notifies "stopped, found" and then the name |
| Finder.NoticesOfMatch | QPOSTestFramework/QPOSTestFramework/QPOSModels/PayologyPOSBluetoothFinder.swift:68-71 | a POS name produces exactly two notices: "stopped, found", then the name |
| Finder.RunKeepsFlag | QPOSTestFramework/QPOSTestFramework/QPOSModels/PayologyPOSBluetoothFinder.swift:20-76 | no sequence of finder operations ever lowers a raised flag |
| Finder.IgnoredNamesAreSilent | QPOSTestFramework/QPOSTestFramework/QPOSModels/PayologyPOSBluetoothFinder.swift:60-66 | any number of nil or non-POS names changes no state and emits nothing |
| Finder.ScanWithoutMatch | QPOSTestFramework/QPOSTestFramework/QPOSModels/PayologyPOSBluetoothFinder.swift:31-42 | start, non-POS names, then timeout: the delegate hears exactly "started" and then "stopped, not found" |
| Finder.ScanWithMatch | QPOSTestFramework/QPOSTestFramework/QPOSModels/PayologyPOSBluetoothFinder.swift:31-72 | start, non-POS names, a POS name, then timeout: the delegate hears exactly "started", "stopped, found" and the name; the timeout adds nothing |
| Finder.StaleFlagSilencesTimeout | QPOSTestFramework/QPOSTestFramework/QPOSModels/PayologyPOSBluetoothFinder.swift:31-42 | with the flag already raised, a new scan's timeout notifies nothing |
| Finder.StopScanIdempotent | QPOSTestFramework/QPOSTestFramework/QPOSModels/PayologyPOSBluetoothFinder.swift:45-48 | stopping again, or finishing after a stop, repeats the same calls and leaves the same state |
| Manager.Init | QPOSTestFramework/QPOSTestFramework/QPOSModels/PayologyPOSManager.swift:16-25 | a new manager is not connected, its finder's flag is down, and the statuses are `awaitingConnection` and `awaitingTradeStart` |
| Manager.Issue | QPOSTestFramework/QPOSTestFramework/QPOSModels/PayologyPOSManager.swift:13 | calls through `POSInstance?` happen exactly when the shared service exists |
| Manager.SetConnected | QPOSTestFramework/QPOSTestFramework/QPOSModels/PayologyPOSManager.swift:16-20 | assigning `hasConnectedDevice` copies the value into the finder's flag and changes nothing else |
| Manager.ConnectBluetoothDevice | QPOSTestFramework/QPOSTestFramework/QPOSModels/PayologyPOSManager.swift:58-67 | issues setDelegate, setPosType(bluetooth_2mode), setQueue(nil), connectBT(name) and setBTAutoDetecting(true) in that order; the status becomes `connectingDevice` |
| Manager.DisconnectBluetoothDevice | QPOSTestFramework/QPOSTestFramework/QPOSModels/PayologyPOSManager.swift:69-73 | issues only disconnectBT; the status becomes `disconnectingDevice` |
| Manager.OnRequestQposConnected | QPOSTestFramework/QPOSTestFramework/QPOSModels/PayologyPOSManager.swift:75-79 | connected, finder flag raised, status `connectionDidSuccessfullyEnd`, trade status kept |
| Manager.OnRequestNoQposDetected | QPOSTestFramework/QPOSTestFramework/QPOSModels/PayologyPOSManager.swift:81-84 | only the status changes, to `unableToConnectDevice` |
| Manager.OnRequestQposDisconnected | QPOSTestFramework/QPOSTestFramework/QPOSModels/PayologyPOSManager.swift:86-90 | disconnected, finder flag lowered, status `disconnectionDidEnd`, trade status kept |
| Manager.OnDidStartScanning | QPOSTestFramework/QPOSTestFramework/QPOSModels/PayologyPOSManager.swift:92-95 | only the status changes, to `didStartScanning` |
| Manager.OnDidStopScanning | QPOSTestFramework/QPOSTestFramework/QPOSModels/PayologyPOSManager.swift:97-101 | when connected, nothing changes; otherwise the status becomes `scanDidFoundDevice` or `scanDidNotFoundDevice` according to the flag passed in |
| Manager.Notified | QPOSTestFramework/QPOSTestFramework/QPOSModels/PayologyPOSManager.swift:92-106 | a delegate notice moves only the Bluetooth status: "started" gives `didStartScanning`; "stopped" is ignored when connected and otherwise gives found or not found; a name connects at once, making `connectBluetoothDevice`'s five calls through the optional service and leaving `connectingDevice`; only a name makes SDK calls |
| Manager.DeliverOne | QPOSTestFramework/QPOSTestFramework/QPOSModels/PayologyPOSBluetoothFinder.swift:68-71 | one finder effect changes only the Bluetooth status; an SDK call passes through unchanged |
| Manager.Deliver | QPOSTestFramework/QPOSTestFramework/QPOSModels/PayologyPOSBluetoothFinder.swift:31-71 | replaying the finder's effects in order, with each notice re-entering the manager synchronously, changes nothing but the Bluetooth status |
| Manager.DeliverCallsOnly | QPOSTestFramework/QPOSTestFramework/QPOSModels/PayologyPOSBluetoothFinder.swift:45-48 | effects without a notice only pass their SDK calls through, in order, and leave the manager unchanged |
| Manager.DeliverConcat | QPOSTestFramework/QPOSTestFramework/QPOSModels/PayologyPOSBluetoothFinder.swift:68-71 | replaying two effect sequences one after the other is replaying their concatenation: states chain and traces concatenate |
| Manager.StartScanning | QPOSTestFramework/QPOSTestFramework/QPOSModels/PayologyPOSManager.swift:52-56 | when connected, a complete no-op; otherwise the finder's scan calls and status `didStartScanning`, with nothing else changed |
| Manager.StopScanning | QPOSTestFramework/QPOSTestFramework/QPOSModels/PayologyPOSBluetoothFinder.swift:45-48 | the finder's stop makes two calls and leaves the manager unchanged |
| Manager.ScanTimedOut | QPOSTestFramework/QPOSTestFramework/QPOSModels/PayologyPOSBluetoothFinder.swift:37-42 | the timeout's calls are a stop; with the flag raised the manager is unchanged; otherwise it gets the "not found" notice |
| Manager.NameDiscovered | QPOSTestFramework/QPOSTestFramework/QPOSModels/PayologyPOSManager.swift:97-106 | a non-POS name is a no-op; a POS name leaves the flag raised, the scan stopped, the connect calls made, and the status at `connectingDevice` |
| Manager.OnRequestWaitingUser | QPOSTestFramework/QPOSTestFramework/QPOSModels/PayologyPOSManager.swift:169-172 | only the trade status changes, to `awaitingUserCardAction` |
| Manager.ErrorStatus | QPOSTestFramework/QPOSTestFramework/QPOSModels/PayologyPOSManager.swift:174-181 | `tradeDidTimeout` iff the error is TIMEOUT or CMD_TIMEOUT, and `tradeDidFail` otherwise |
| Manager.TradeResultStatus | QPOSTestFramework/QPOSTestFramework/QPOSModels/PayologyPOSManager.swift:205-215 | `didCompleteInsertTrade` iff ICC; `didCompleteTapTrade` iff NFC_ONLINE with a non-nil all-string dictionary; `tradeDidFail` otherwise |
| Manager.OnlineProcessStatus | QPOSTestFramework/QPOSTestFramework/QPOSModels/PayologyPOSManager.swift:218-230 | `tradeDidFail` iff the TLV is nil, and `didCompleteInsertTrade` iff it is present |
| Manager.OnDHError | QPOSTestFramework/QPOSTestFramework/QPOSModels/PayologyPOSManager.swift:174-181 | only the trade status moves: `tradeDidTimeout` iff the error is TIMEOUT or CMD_TIMEOUT, `tradeDidFail` otherwise |
| Manager.OnDoTradeResult | QPOSTestFramework/QPOSTestFramework/QPOSModels/PayologyPOSManager.swift:191-216 | only the trade status moves: `didCompleteInsertTrade` iff ICC, `didCompleteTapTrade` iff NFC_ONLINE with a non-nil all-string dictionary, `tradeDidFail` iff neither |
| Manager.OnRequestOnlineProcess | QPOSTestFramework/QPOSTestFramework/QPOSModels/PayologyPOSManager.swift:218-230 | only the trade status moves: `tradeDidFail` iff the TLV is nil, `didCompleteInsertTrade` iff it is present |
| Manager.StartTrade | QPOSTestFramework/QPOSTestFramework/QPOSModels/PayologyPOSManager.swift:127-139 | issues setAmount, setCardTradeMode and doTrade in that order; the amount is exactly `getAmountString` of the amount, a digit string that reads back as the amount in cents with its sign dropped; no state changes, connected or not |
| Manager.StopTrade | QPOSTestFramework/QPOSTestFramework/QPOSModels/PayologyPOSManager.swift:141-144 | issues only cancelTrade(true) and changes no state |
| Manager.OnRequestTime | QPOSTestFramework/QPOSTestFramework/QPOSModels/PayologyPOSManager.swift:163-167 | replies with the given time string and changes no state |
| Manager.OnRequestPinEntry | QPOSTestFramework/QPOSTestFramework/QPOSModels/PayologyPOSManager.swift:183-188 | issues exactly one bypassPinEntry; the trade status ends at `didBypassPINEntry` |
| System.RunKeepsMirror | QPOSTestFramework/QPOSTestFramework/QPOSModels/PayologyPOSManager.swift:16-20 | over any sequence of events, `hasConnectedDevice` implies the finder's flag |
| System.FlagClearedOnlyByDisconnect | QPOSTestFramework/QPOSTestFramework/QPOSModels/PayologyPOSManager.swift:86-90 | only the disconnection callback lowers a raised finder flag |
| System.RunWithoutDisconnectKeepsFlag | QPOSTestFramework/QPOSTestFramework/QPOSModels/PayologyPOSManager.swift:86-90 | over any run of events with no disconnection callback, a raised finder flag stays raised |
| System.StaleFlagSilencesEveryLaterTimeout | QPOSTestFramework/QPOSTestFramework/QPOSModels/PayologyPOSBluetoothFinder.swift:31-42 | once the flag is raised, after any run of events without a disconnection a scan timeout only makes the two stop calls and changes nothing, so "not found" is never reported |
| System.RunTraceWellFormed | QPOSTestFramework/QPOSTestFramework/QPOSModels/PayologyPOSManager.swift:58-67 | over any sequence of events, every scan is preceded by delegate registration, every stop is followed by unregistration, every connect is wrapped in its set-up calls, and every amount is followed by the trade mode and doTrade |
| System.RunNeverShowsPinStates | QPOSTestFramework/QPOSTestFramework/QPOSModels/PayologyPOSManager.swift:111-125 | after any sequence of events, the trade status is never `awaitingUserPIN`, `userDidEnterPIN` or `didCancelPINEntry` |
| System.TradeAndConnectionAreSeparate | QPOSTestFramework/QPOSTestFramework/QPOSModels/PayologyPOSManager.swift:127-230 | trade events change only the trade status; other events never change it |
| System.ClassifyingEventsIssueNoCalls | QPOSTestFramework/QPOSTestFramework/QPOSModels/PayologyPOSManager.swift:169-230 | the waiting, error, trade-result and online-process callbacks make no SDK call and change only the trade status |
| System.LateTradeEventsOverwrite | QPOSTestFramework/QPOSTestFramework/QPOSModels/PayologyPOSManager.swift:169-230 | a classifying trade event sets the same status whatever the previous status was, including after a terminal one |
| System.ConnectedIgnoresScans | QPOSTestFramework/QPOSTestFramework/QPOSModels/PayologyPOSManager.swift:52-56 | once connected, a scan request does nothing and a timeout leaves the manager unchanged; the connection guard alone gives this, without the flag mirror |
| System.StaleFlagKeepsScanning | QPOSTestFramework/QPOSTestFramework/QPOSModels/PayologyPOSBluetoothFinder.swift:31-42 | when the flag is up but not connected, a scan and its timeout leave the status at `didStartScanning` |
| System.ConnectionFailureSilencesLaterScans | QPOSTestFramework/QPOSTestFramework/QPOSModels/PayologyPOSBluetoothFinder.swift:20-42 | a found device whose connection fails suppresses "not found" for that scan and for the next one |
| System.ScanNotFound | QPOSTestFramework/QPOSTestFramework/QPOSModels/PayologyPOSBluetoothFinder.swift:37-42 | a scan that sees no name ends at `scanDidNotFoundDevice`, not connected |
| System.ScanFoundAndConnected | QPOSTestFramework/QPOSTestFramework/QPOSModels/PayologyPOSManager.swift:97-106 | "MPOS12345" found: `connectingDevice`, then `connectionDidSuccessfullyEnd` on confirmation, and the later timeout changes nothing |
| System.InsertTradeWithPinBypass | QPOSTestFramework/QPOSTestFramework/QPOSModels/PayologyPOSManager.swift:75-215 | after the connection callback, a 10.00 trade in currency "840" sends "1000"; the PIN is bypassed; the chip result then ends at `didCompleteInsertTrade` with no call, still connected |

## Left out

- Amount conversion: `Decimal` to `Double` and the rounding of `%.2f` are floating point. The amount is a whole number of cents, so an amount with more than two fractional digits, or one beyond a double's exact range, is not modelled.
- Clock: `getTerminalTimeString` reads the wall clock through `DateFormatter`. `OnRequestTime` takes the time string as a parameter.
- Timeout timing: `DispatchQueue.main.asyncAfter` timing is not modelled. The timeout is an event that can arrive at any point. The closure's `[weak self]` guard is not modelled either; it matters only once the finder is gone.
- Finder delegate: the delegate is weak and optional. The model assumes it is always the manager, which sets itself as the delegate in `init` and owns the finder.
- The vendor SDK (`QPOSService`, `BTDeviceFinder`, `DHError`, `DoTradeResult`, `PosType`) is foreign code. Its calls are trace entries, its callbacks are events in any order, and its enumerations are reduced to the cases the adapter tests plus an "other" case.
- Logging: every `print`, including the decoded-data dump in `onDoTradeResult`, is output only.
- Swift strings: they are counted in grapheme clusters. Here one `char` stands for one `Character`. `CharacterSet.decimalDigits` also admits non-ASCII digits, which `%.2f` never prints.
- `Int(scanningInterval)` traps on a non-finite interval and on a finite one outside `Int`'s range. Reals have no non-finite values and integers are unbounded, so neither trap is modelled.
- Amount.AmountString: a `Decimal.nan` amount prints as "nan", so `getAmountString` returns the empty string. Whole cents have no NaN, so the model's `|r| >= 3` covers only the amounts it represents.
- External writes: `bluetoothStatus`, `tradeStatus` and the finder's `didFoundDevice` are public and writable. The finder's `startScan` and the delegate methods `didStartScanning`, `didStopScanning` and `didFindPOSDeviceName` can also be called directly, and `startScan` then skips the manager's connection guard. None of these is an event, so the run-level invariants hold over the modelled entry points only. `ViewController`, the only client, uses none of them.
- UI: the `ViewController` layout and button wiring are not modelled. Neither is its "connect before trading" check, which the manager lacks.
- `ParseXMLTool.h` declares an XML loader whose implementation is not part of this model.
- The unused `ConfigurationStatus` enum is not modelled.
- Other callbacks: batch-data and final transaction-result notifications have no handler in `PayologyPOSManager.swift`, so they have no effect on the manager.

=== FILE: amount.dfy ===
/** `getAmountString`: the payment amount is printed with `%.2f` and every
    character that is not a decimal digit is then dropped, which leaves the
    amount in minor units (10.00 becomes "1000", 0.07 becomes "007").  The
    amount is modelled as a whole number of cents. */
module Amount {

  predicate IsDigit(c: char)
  {
    '0' <= c <= '9'
  }

  predicate AllDigits(s: string)
  {
    forall i | 0 <= i < |s| :: IsDigit(s[i])
  }

  function Abs(x: int): nat
  {
    if x < 0 then -x else x
  }

  function DigitChar(d: nat): (c: char)
    requires d < 10
    ensures IsDigit(c)
  {
    (('0' as int) + d) as char
  }

  function DigitValue(c: char): (d: nat)
    requires IsDigit(c)
    ensures d < 10
  {
    (c as int) - ('0' as int)
  }

  /** The integer part as `%.2f` prints it: decimal, no sign, no leading zero
      (a lone "0" for zero). */
  function Decimal(n: nat): (s: string)
    ensures 1 <= |s|
    ensures AllDigits(s)
    ensures |s| > 1 ==> s[0] != '0'
    decreases n
  {
    if n < 10 then [DigitChar(n)] else Decimal(n / 10) + [DigitChar(n % 10)]
  }

  /** The two fractional digits `%.2f` prints. */
  function TwoDigits(n: nat): (s: string)
    requires n < 100
    ensures |s| == 2 && AllDigits(s)
  {
    [DigitChar(n / 10), DigitChar(n % 10)]
  }

  /** `String(format: "%.2f", x)` for an amount of `cents` hundredths. */
  function FormatFixed2(cents: int): (r: string)
    ensures |r| >= 4
    ensures r[0] == '-' <==> cents < 0
    ensures r[|r| - 3] == '.' && r[|r| - 2..] == TwoDigits(Abs(cents) % 100)
    ensures r[(if cents < 0 then 1 else 0)..|r| - 3] == Decimal(Abs(cents) / 100)
  {
    (if cents < 0 then "-" else "") + Decimal(Abs(cents) / 100) + "." + TwoDigits(Abs(cents) % 100)
  }

  /** `components(separatedBy: CharacterSet.decimalDigits.inverted).joined()`:
      keep the digits, in order, and nothing else. */
  function DigitsOnly(s: string): (r: string)
    ensures AllDigits(r)
    ensures |r| <= |s|
    ensures |s| == 1 ==> r == (if IsDigit(s[0]) then s else [])
  {
    if s == [] then []
    else if IsDigit(s[0]) then [s[0]] + DigitsOnly(s[1..])
    else DigitsOnly(s[1..])
  }

  lemma {:induction false} DigitsOnlyConcat(a: string, b: string)
    ensures DigitsOnly(a + b) == DigitsOnly(a) + DigitsOnly(b)
    decreases |a|
  {
    if a != [] {
      assert (a + b)[0] == a[0];
      assert (a + b)[1..] == a[1..] + b;
      DigitsOnlyConcat(a[1..], b);
    } else {
      assert a + b == b;
    }
  }

  lemma {:induction false} DigitsOnlyKeepsDigits(s: string)
    requires AllDigits(s)
    ensures DigitsOnly(s) == s
    decreases |s|
  {
    if s != [] {
      DigitsOnlyKeepsDigits(s[1..]);
    }
  }

  /** Formatting then stripping leaves the whole units followed by the two
      hundredths digits: the sign and the '.' are the only non-digits. */
  lemma StripFormatted(cents: int)
    ensures DigitsOnly(FormatFixed2(cents)) == Decimal(Abs(cents) / 100) + TwoDigits(Abs(cents) % 100)
  {
    var sign: string := if cents < 0 then "-" else "";
    var whole := Decimal(Abs(cents) / 100);
    var frac := TwoDigits(Abs(cents) % 100);
    assert FormatFixed2(cents) == sign + whole + "." + frac;
    DigitsOnlyConcat(sign + whole + ".", frac);
    DigitsOnlyConcat(sign + whole, ".");
    DigitsOnlyConcat(sign, whole);
    DigitsOnlyKeepsDigits(whole);
    DigitsOnlyKeepsDigits(frac);
    assert DigitsOnly(sign) == [];
    assert DigitsOnly(".") == [];
  }

  /** The string sent to the terminal as the amount. */
  function AmountString(cents: int): (r: string)
    ensures AllDigits(r)
    ensures r == Decimal(Abs(cents) / 100) + TwoDigits(Abs(cents) % 100)
    ensures |r| >= 3
  {
    StripFormatted(cents);
    DigitsOnly(FormatFixed2(cents))
  }

  /** The value of a digit string read in base ten. */
  function ParseDigits(s: string): nat
    requires AllDigits(s)
  {
    if s == [] then 0 else 10 * ParseDigits(s[..|s| - 1]) + DigitValue(s[|s| - 1])
  }

  lemma {:induction false} ParseDecimal(n: nat)
    ensures ParseDigits(Decimal(n)) == n
    decreases n
  {
    if n >= 10 {
      var s := Decimal(n);
      assert s[..|s| - 1] == Decimal(n / 10);
      ParseDecimal(n / 10);
    }
  }

  lemma ParseAppendTwo(a: string, b: string)
    requires AllDigits(a) && |b| == 2 && AllDigits(b)
    ensures AllDigits(a + b)
    ensures ParseDigits(a + b) == 100 * ParseDigits(a) + ParseDigits(b)
  {
    var t := a + b;
    var u := a + [b[0]];
    assert t[..|t| - 1] == u;
    assert u[..|u| - 1] == a;
    assert ParseDigits(u) == 10 * ParseDigits(a) + DigitValue(b[0]);
    assert ParseDigits(t) == 10 * ParseDigits(u) + DigitValue(b[1]);
    assert b[..1] == [b[0]];
    assert [b[0]][..0] == [];
    assert ParseDigits([b[0]]) == DigitValue(b[0]);
    assert ParseDigits(b) == 10 * ParseDigits([b[0]]) + DigitValue(b[1]);
  }

  /** The amount string denotes the amount in minor units: reading it back
      gives the number of cents, sign dropped. */
  lemma AmountStringDenotesCents(cents: int)
    ensures ParseDigits(AmountString(cents)) == Abs(cents)
  {
    var n := Abs(cents);
    ParseAppendTwo(Decimal(n / 100), TwoDigits(n % 100));
    ParseDecimal(n / 100);
    ParseTwoDigits(n % 100);
  }

  lemma ParseTwoDigits(m: nat)
    requires m < 100
    ensures ParseDigits(TwoDigits(m)) == m
  {
    var t := TwoDigits(m);
    assert t[..1] == [t[0]];
    assert [t[0]][..0] == [];
    assert DigitValue(t[0]) == m / 10;
    assert DigitValue(t[1]) == m % 10;
    assert ParseDigits([t[0]]) == m / 10;
  }

  /** The minus sign `%.2f` prints is stripped with the separator. */
  lemma AmountStringIgnoresSign(cents: int)
    ensures AmountString(-cents) == AmountString(cents)
  {
  }

  /** Distinct non-negative amounts are sent as distinct strings. */
  lemma AmountStringInjective(a: int, b: int)
    requires 0 <= a && 0 <= b
    requires AmountString(a) == AmountString(b)
    ensures a == b
  {
    AmountStringDenotesCents(a);
    AmountStringDenotesCents(b);
  }

  lemma AmountStringOf(cents: int, whole: string, frac: string)
    requires Decimal(Abs(cents) / 100) == whole
    requires Abs(cents) % 100 < 100 && TwoDigits(Abs(cents) % 100) == frac
    ensures AmountString(cents) == whole + frac
  {
  }

  /** The worked examples: 10.00 is sent as "1000", 9.50 as "950", 0.07 as
      "007", and -0.07 also as "007". */
  lemma AmountStringExamples()
    ensures AmountString(1000) == "1000"
    ensures AmountString(950) == "950"
    ensures AmountString(7) == "007"
    ensures AmountString(-7) == "007"
  {
    assert Decimal(1) == "1";
    assert Decimal(10) == Decimal(1) + [DigitChar(0)] == "10";
    AmountStringOf(1000, "10", "00");
    AmountStringOf(950, "9", "50");
    AmountStringOf(7, "0", "07");
    AmountStringOf(-7, "0", "07");
  }
}

=== FILE: finder.dfy ===
/** `PayologyPOSBluetoothFinder`: a single-shot Bluetooth scan for a terminal
    whose name starts with "MPOS".  Each operation returns the finder's new
    state together with what it did, in order: calls on the SDK's Bluetooth
    finder and notifications to its delegate. */
module Finder {
  import opened Sdk

  /** The finder's only state: whether a POS device name has been seen.  The
      finder itself only ever sets it; the manager also writes it. */
  datatype Finder = Finder(didFoundDevice: bool)

  /** The three delegate notifications. */
  datatype Notice =
    | DidStartScanning
    | DidStopScanning(hasFoundDevice: bool)
    | DidFindPOSDeviceName(deviceName: string)

  datatype Effect = Call(command: Command) | Notify(notice: Notice)

  datatype Step = Step(finder: Finder, effects: seq<Effect>)

  const DevicePrefix: string := "MPOS"

  /** Notifications, in order, dropping SDK calls. */
  function Notices(effects: seq<Effect>): (r: seq<Notice>)
    ensures |r| <= |effects|
  {
    if effects == [] then []
    else (if effects[0].Notify? then [effects[0].notice] else []) + Notices(effects[1..])
  }

  /** SDK calls, in order, dropping notifications. */
  function Calls(effects: seq<Effect>): (r: seq<Command>)
    ensures |r| + |Notices(effects)| == |effects|
  {
    if effects == [] then []
    else (if effects[0].Call? then [effects[0].command] else []) + Calls(effects[1..])
  }

  lemma {:induction false} NoticesConcat(a: seq<Effect>, b: seq<Effect>)
    ensures Notices(a + b) == Notices(a) + Notices(b)
    decreases |a|
  {
    if a == [] {
      assert a + b == b;
    } else {
      assert (a + b)[0] == a[0];
      assert (a + b)[1..] == a[1..] + b;
      NoticesConcat(a[1..], b);
    }
  }

  /** `Int(x)` on a time interval: truncation toward zero. */
  function Truncate(x: real): (r: int)
    ensures 0.0 <= x ==> r as real <= x < r as real + 1.0
    ensures x < 0.0 ==> r as real - 1.0 < x <= r as real
  {
    if 0.0 <= x then x.Floor else -((-x).Floor)
  }

  /** `isPOSDeviceName`: at least four characters, the first four "MPOS". */
  function IsPOSDeviceName(name: string): (r: bool)
    ensures r <==> DevicePrefix <= name
  {
    |name| >= 4 && name[..4] == DevicePrefix
  }

  lemma NoticesOfCall(c: Command)
    ensures Notices([Call(c)]) == []
  {
  }

  lemma NoticesOfNotify(n: Notice)
    ensures Notices([Notify(n)]) == [n]
  {
  }

  /** `stopScan`: stop the SDK scan and unregister as its delegate. */
  function StopScan(f: Finder): (s: Step)
    ensures s.finder == f
    ensures s.effects == [Call(StopQPos2Mode), Call(SetBluetoothDelegate2Mode(false))]
  {
    Step(f, [Call(StopQPos2Mode), Call(SetBluetoothDelegate2Mode(false))])
  }

  /** `finishScanQPos2Mode`, the SDK's own end-of-scan callback: a stop. */
  function FinishScan(f: Finder): (s: Step)
    ensures s.finder == f
    ensures s.effects == [Call(StopQPos2Mode), Call(SetBluetoothDelegate2Mode(false))]
  {
    StopScan(f)
  }

  /** `startScan`: register as the SDK's delegate, start a scan of the
      truncated interval, and tell the delegate.  The flag is kept: a device
      found by an earlier scan still counts as found. */
  function StartScan(f: Finder, interval: real): (s: Step)
    ensures s.finder == f
    ensures s.effects == [Call(SetBluetoothDelegate2Mode(true)), Call(ScanQPos2Mode(Truncate(interval))), Notify(DidStartScanning)]
  {
    Step(f, [Call(SetBluetoothDelegate2Mode(true)), Call(ScanQPos2Mode(Truncate(interval))), Notify(DidStartScanning)])
  }

  /** The deferred action `startScan` schedules, fired: always a stop, and a
      "not found" notice only while no device has been found.  It never says
      "found" and never reports a name. */
  function Timeout(f: Finder): (s: Step)
    ensures s.finder == f
    ensures |s.effects| == if f.didFoundDevice then 2 else 3
    ensures s.effects[..2] == StopScan(f).effects
    ensures Notify(DidStopScanning(false)) in s.effects <==> !f.didFoundDevice
    ensures forall e | e in s.effects && e.Notify? :: e.notice == DidStopScanning(false)
  {
    var stop := StopScan(f);
    Step(stop.finder, stop.effects + if !f.didFoundDevice then [Notify(DidStopScanning(false))] else [])
  }

  /** `onBluetoothName2Mode`: a name reported by the SDK's scan.  A missing or
      non-matching name is ignored; a POS name stops the scan, sets the flag,
      and tells the delegate "stopped, found" and then the name. */
  function OnBluetoothName(f: Finder, name: Option<string>): (s: Step)
    ensures (name.None? || !IsPOSDeviceName(name.value)) ==> s == Step(f, [])
    ensures name.Some? && IsPOSDeviceName(name.value) ==>
      && s.finder.didFoundDevice
      && s.effects == StopScan(f).effects + [Notify(DidStopScanning(true)), Notify(DidFindPOSDeviceName(name.value))]
  {
    match name
    case None => Step(f, [])
    case Some(n) =>
      if !IsPOSDeviceName(n) then Step(f, [])
      else
        var stop := StopScan(f);
        Step(stop.finder.(didFoundDevice := true),
             stop.effects + [Notify(DidStopScanning(true)), Notify(DidFindPOSDeviceName(n))])
  }

  /** Every operation of the finder, as an input. */
  datatype Input =
    | Start(interval: real)
    | Stop
    | Fire
    | Name(name: Option<string>)
    | Finish

  function Apply(f: Finder, input: Input): Step
  {
    match input
    case Start(interval) => StartScan(f, interval)
    case Stop => StopScan(f)
    case Fire => Timeout(f)
    case Name(n) => OnBluetoothName(f, n)
    case Finish => FinishScan(f)
  }

  /** Apply inputs in order with `step`, collecting what they did. */
  function Fold(f: Finder, inputs: seq<Input>, step: (Finder, Input) -> Step): Step
    decreases |inputs|
  {
    if inputs == [] then Step(f, [])
    else
      var first := step(f, inputs[0]);
      var rest := Fold(first.finder, inputs[1..], step);
      Step(rest.finder, first.effects + rest.effects)
  }

  function Run(f: Finder, inputs: seq<Input>): Step
  {
    Fold(f, inputs, Apply)
  }

  lemma {:induction false} FoldConcat(f: Finder, a: seq<Input>, b: seq<Input>, step: (Finder, Input) -> Step)
    ensures Fold(f, a + b, step).finder == Fold(Fold(f, a, step).finder, b, step).finder
    ensures Fold(f, a + b, step).effects == Fold(f, a, step).effects + Fold(Fold(f, a, step).finder, b, step).effects
    decreases |a|
  {
    if a == [] {
      assert a + b == b;
    } else {
      assert (a + b)[0] == a[0];
      assert (a + b)[1..] == a[1..] + b;
      FoldConcat(step(f, a[0]).finder, a[1..], b, step);
    }
  }

  lemma RunConcat(f: Finder, a: seq<Input>, b: seq<Input>)
    ensures Run(f, a + b).finder == Run(Run(f, a).finder, b).finder
    ensures Run(f, a + b).effects == Run(f, a).effects + Run(Run(f, a).finder, b).effects
  {
    FoldConcat(f, a, b, Apply);
  }

  /** The finder never clears its flag: only the manager does. */
  lemma {:induction false} RunKeepsFlag(f: Finder, inputs: seq<Input>)
    requires f.didFoundDevice
    ensures Run(f, inputs).finder.didFoundDevice
    decreases |inputs|
  {
    if inputs != [] {
      RunKeepsFlag(Apply(f, inputs[0]).finder, inputs[1..]);
    }
  }

  predicate Ignored(name: Option<string>)
  {
    name.None? || !IsPOSDeviceName(name.value)
  }

  function Names(names: seq<Option<string>>): (r: seq<Input>)
    ensures |r| == |names|
    ensures forall i | 0 <= i < |names| :: r[i] == Name(names[i])
  {
    if names == [] then [] else [Name(names[0])] + Names(names[1..])
  }

  /** Names that are not POS names do nothing at all, however many arrive. */
  lemma {:induction false} IgnoredNamesAreSilent(f: Finder, names: seq<Option<string>>)
    requires forall i | 0 <= i < |names| :: Ignored(names[i])
    ensures Run(f, Names(names)) == Step(f, [])
    decreases |names|
  {
    if names != [] {
      var inputs := Names(names);
      assert inputs[0] == Name(names[0]);
      assert inputs[1..] == Names(names[1..]);
      IgnoredNamesAreSilent(f, names[1..]);
    }
  }

  /** What the delegate hears from each operation. */
  lemma NoticesOfStartScan(f: Finder, interval: real)
    ensures Notices(StartScan(f, interval).effects) == [DidStartScanning]
  {
    var e := StartScan(f, interval).effects;
    assert e == [e[0]] + [e[1]] + [e[2]];
    NoticesConcat([e[0]] + [e[1]], [e[2]]);
    NoticesConcat([e[0]], [e[1]]);
    NoticesOfCall(e[0].command);
    NoticesOfCall(e[1].command);
    NoticesOfNotify(DidStartScanning);
  }

  lemma NoticesOfStopScan(f: Finder)
    ensures Notices(StopScan(f).effects) == []
  {
  }

  lemma NoticesOfTimeout(f: Finder)
    ensures Notices(Timeout(f).effects) == (if f.didFoundDevice then [] else [DidStopScanning(false)])
  {
    var stop := StopScan(f).effects;
    var extra: seq<Effect> := if !f.didFoundDevice then [Notify(DidStopScanning(false))] else [];
    assert Timeout(f).effects == stop + extra;
    NoticesConcat(stop, extra);
    NoticesOfStopScan(f);
    NoticesOfNotify(DidStopScanning(false));
  }

  lemma NoticesOfMatch(f: Finder, device: string)
    requires IsPOSDeviceName(device)
    ensures Notices(OnBluetoothName(f, Some(device)).effects) == [DidStopScanning(true), DidFindPOSDeviceName(device)]
  {
    var stop := StopScan(f).effects;
    var a := [Notify(DidStopScanning(true))];
    var b := [Notify(DidFindPOSDeviceName(device))];
    assert OnBluetoothName(f, Some(device)).effects == stop + (a + b);
    NoticesConcat(stop, a + b);
    NoticesConcat(a, b);
    NoticesOfStopScan(f);
    NoticesOfNotify(DidStopScanning(true));
    NoticesOfNotify(DidFindPOSDeviceName(device));
  }

  lemma RunOne(f: Finder, input: Input)
    ensures Run(f, [input]) == Apply(f, input)
  {
    var first := Apply(f, input);
    assert [input][1..] == [];
    assert Fold(first.finder, [], Apply) == Step(first.finder, []);
    assert first.effects + [] == first.effects;
  }

  /** Starting a scan and then hearing only non-POS names is just the start. */
  lemma StartThenIgnored(f: Finder, interval: real, names: seq<Option<string>>)
    requires forall i | 0 <= i < |names| :: Ignored(names[i])
    ensures Run(f, [Start(interval)] + Names(names)) == StartScan(f, interval)
  {
    var start := [Start(interval)];
    var ns := Names(names);
    RunConcat(f, start, ns);
    RunOne(f, Start(interval));
    IgnoredNamesAreSilent(f, names);
    var s1 := StartScan(f, interval);
    assert s1.effects + [] == s1.effects;
  }

  lemma StartIgnoredThenFire(f: Finder, interval: real, names: seq<Option<string>>)
    requires forall i | 0 <= i < |names| :: Ignored(names[i])
    ensures Run(f, [Start(interval)] + Names(names) + [Fire]).effects
         == StartScan(f, interval).effects + Timeout(f).effects
  {
    var prefix := [Start(interval)] + Names(names);
    RunConcat(f, prefix, [Fire]);
    StartThenIgnored(f, interval, names);
    RunOne(f, Fire);
  }

  lemma NoticesOfPair(a: seq<Effect>, b: seq<Effect>, x: seq<Notice>, y: seq<Notice>)
    requires Notices(a) == x && Notices(b) == y
    ensures Notices(a + b) == x + y
  {
    NoticesConcat(a, b);
  }

  /** A scan that sees only non-POS names until its timeout fires ends with
      exactly one notice, "stopped, not found" (when no device was found
      before). */
  lemma ScanWithoutMatch(f: Finder, interval: real, names: seq<Option<string>>)
    requires !f.didFoundDevice
    requires forall i | 0 <= i < |names| :: Ignored(names[i])
    ensures Notices(Run(f, [Start(interval)] + Names(names) + [Fire]).effects)
         == [DidStartScanning] + [DidStopScanning(false)]
  {
    StartIgnoredThenFire(f, interval, names);
    var a := StartScan(f, interval).effects;
    var b := Timeout(f).effects;
    NoticesOfStartScan(f, interval);
    NoticesOfTimeout(f);
    assert Notices(b) == [DidStopScanning(false)];
    NoticesOfPair(a, b, [DidStartScanning], [DidStopScanning(false)]);
  }

  lemma NameThenFire(f: Finder, device: string)
    ensures Run(f, [Name(Some(device)), Fire]).effects
         == OnBluetoothName(f, Some(device)).effects + Timeout(OnBluetoothName(f, Some(device)).finder).effects
  {
    var found := OnBluetoothName(f, Some(device));
    assert [Name(Some(device)), Fire] == [Name(Some(device))] + [Fire];
    RunConcat(f, [Name(Some(device))], [Fire]);
    RunOne(f, Name(Some(device)));
    RunOne(found.finder, Fire);
  }

  /** A POS name and then the timeout: the name's two notices, and nothing
      from the timeout, since the flag is now raised. */
  lemma MatchThenTimeout(f: Finder, device: string)
    requires IsPOSDeviceName(device)
    ensures Notices(Run(f, [Name(Some(device)), Fire]).effects)
         == [DidStopScanning(true), DidFindPOSDeviceName(device)]
  {
    var found := OnBluetoothName(f, Some(device));
    var t := Timeout(found.finder).effects;
    NoticesOfTimeout(found.finder);
    NameThenFire(f, device);
    NoticesOfMatch(f, device);
    NoticesOfPair(found.effects, t, [DidStopScanning(true), DidFindPOSDeviceName(device)], []);
    assert [DidStopScanning(true), DidFindPOSDeviceName(device)] + [] == [DidStopScanning(true), DidFindPOSDeviceName(device)];
  }

  /** A scan that sees a POS name before its timeout notifies "stopped, found"
      and the name, once each and in that order; the timeout that fires later
      only stops the scan again and adds no notice. */
  lemma ScanWithMatch(f: Finder, interval: real, names: seq<Option<string>>, device: string)
    requires forall i | 0 <= i < |names| :: Ignored(names[i])
    requires IsPOSDeviceName(device)
    ensures Notices(Run(f, [Start(interval)] + Names(names) + [Name(Some(device)), Fire]).effects)
         == [DidStartScanning, DidStopScanning(true), DidFindPOSDeviceName(device)]
  {
    var prefix := [Start(interval)] + Names(names);
    var tail := [Name(Some(device)), Fire];
    RunConcat(f, prefix, tail);
    StartThenIgnored(f, interval, names);
    var s1 := StartScan(f, interval).effects;
    var rest := Run(f, tail).effects;
    assert Run(f, prefix + tail).effects == s1 + rest;
    NoticesConcat(s1, rest);
    NoticesOfStartScan(f, interval);
    MatchThenTimeout(f, device);
  }

  /** Because `startScan` does not reset the flag, a scan after a device was
      once found never reports "not found" on timeout. */
  lemma StaleFlagSilencesTimeout(f: Finder, interval: real)
    requires f.didFoundDevice
    ensures Notices(Run(f, [Start(interval), Fire]).effects) == [DidStartScanning]
  {
    assert [Start(interval), Fire] == [Start(interval)] + [Fire];
    RunConcat(f, [Start(interval)], [Fire]);
    RunOne(f, Start(interval));
    RunOne(f, Fire);
    var s1 := StartScan(f, interval).effects;
    var t := Timeout(f).effects;
    NoticesConcat(s1, t);
    NoticesOfStartScan(f, interval);
    NoticesOfTimeout(f);
  }

  /** Stopping twice is stopping once, as far as the finder's state goes. */
  lemma StopScanIdempotent(f: Finder)
    ensures StopScan(StopScan(f).finder) == StopScan(f)
    ensures FinishScan(StopScan(f).finder) == StopScan(f)
  {
  }
}

=== FILE: manager.dfy ===
/** `PayologyPOSManager`: owns the finder, the connection flag and the two
    observable status values, and answers the terminal SDK's callbacks.  Every
    entry point is a pure step from the manager's state to its new state and
    the SDK calls made meanwhile, in order. */
module Manager {
  import opened Sdk
  import Amount
  import Finder

  datatype BluetoothStatus =
    | AwaitingConnection
    | DidStartScanning
    | ScanDidFoundDevice
    | ScanDidNotFoundDevice
    | ConnectingDevice
    | ConnectionDidSuccessfullyEnd
    | UnableToConnectDevice
    | DisconnectingDevice
    | DisconnectionDidEnd

  datatype TradeStatus =
    | AwaitingTradeStart
    | AwaitingUserCardAction
    | AwaitingUserPIN
    | UserDidEnterPIN
    | DidCancelPINEntry
    | DidBypassPINEntry
    | TradeDidTimeout
    | TradeDidFail
    | DidCompleteTapTrade
    | DidCompleteInsertTrade

  /** `POSTradeData`, with the amount as a whole number of cents. */
  datatype TradeData = TradeData(
    amountCents: int,
    currencyCode: string,
    transactionType: TransactionType,
    tradeMode: CardTradeMode)

  /** The manager's state.  `posInstance` says whether the SDK's shared
      service exists: every call made through the optional `POSInstance?` is
      silently skipped when it does not. */
  datatype Manager = Manager(
    posInstance: bool,
    finder: Finder.Finder,
    hasConnectedDevice: bool,
    bluetoothStatus: BluetoothStatus,
    tradeStatus: TradeStatus)

  datatype Outcome = Outcome(manager: Manager, trace: seq<Command>)

  /** The flag mirror: whenever the manager holds a connection, the finder
      holds its "found" flag. */
  predicate Mirrored(m: Manager)
  {
    m.hasConnectedDevice ==> m.finder.didFoundDevice
  }

  function Init(posInstance: bool): (m: Manager)
    ensures Mirrored(m) && !m.hasConnectedDevice && !m.finder.didFoundDevice
    ensures m.bluetoothStatus == AwaitingConnection && m.tradeStatus == AwaitingTradeStart
  {
    Manager(posInstance, Finder.Finder(false), false, AwaitingConnection, AwaitingTradeStart)
  }

  /** The calls that reach the terminal service through `POSInstance?`. */
  function Issue(m: Manager, calls: seq<Command>): (t: seq<Command>)
    ensures m.posInstance ==> t == calls
    ensures !m.posInstance ==> t == []
  {
    if m.posInstance then calls else []
  }

  /** Assignment to `hasConnectedDevice`; its `didSet` copies the value into
      the finder's flag. */
  function SetConnected(m: Manager, connected: bool): (r: Manager)
    ensures r.hasConnectedDevice == connected && r.finder.didFoundDevice == connected
    ensures Mirrored(r)
    ensures r.(hasConnectedDevice := m.hasConnectedDevice, finder := m.finder) == m
  {
    m.(hasConnectedDevice := connected, finder := Finder.Finder(connected))
  }

  // ---------------------------------------------------------------------
  // Bluetooth connection

  /** `connectBluetoothDevice`: set up the service for the Bluetooth
      transport, connect to the named device, enable auto-detection. */
  function ConnectBluetoothDevice(m: Manager, deviceName: string): (o: Outcome)
    ensures o.manager == m.(bluetoothStatus := ConnectingDevice)
    ensures o.trace == Issue(m, [SetDelegate, SetPosType(Bluetooth2Mode), SetDefaultQueue,
                                 ConnectBT(deviceName), SetBTAutoDetecting(true)])
  {
    Outcome(m.(bluetoothStatus := ConnectingDevice),
            Issue(m, [SetDelegate, SetPosType(Bluetooth2Mode), SetDefaultQueue,
                      ConnectBT(deviceName), SetBTAutoDetecting(true)]))
  }

  /** `disconnectBluetoothDevice`. */
  function DisconnectBluetoothDevice(m: Manager): (o: Outcome)
    ensures o.manager == m.(bluetoothStatus := DisconnectingDevice)
    ensures o.trace == Issue(m, [DisconnectBT])
  {
    Outcome(m.(bluetoothStatus := DisconnectingDevice), Issue(m, [DisconnectBT]))
  }

  /** `onRequestQposConnected`. */
  function OnRequestQposConnected(m: Manager): (r: Manager)
    ensures r.hasConnectedDevice && r.finder.didFoundDevice
    ensures r.bluetoothStatus == ConnectionDidSuccessfullyEnd
    ensures r.tradeStatus == m.tradeStatus && r.posInstance == m.posInstance
  {
    SetConnected(m, true).(bluetoothStatus := ConnectionDidSuccessfullyEnd)
  }

  /** `onRequestNoQposDetected`: only the status moves. */
  function OnRequestNoQposDetected(m: Manager): (r: Manager)
    ensures r == m.(bluetoothStatus := UnableToConnectDevice)
  {
    m.(bluetoothStatus := UnableToConnectDevice)
  }

  /** `onRequestQposDisconnected`: clears the connection and, through the
      mirror, the finder's flag. */
  function OnRequestQposDisconnected(m: Manager): (r: Manager)
    ensures !r.hasConnectedDevice && !r.finder.didFoundDevice
    ensures r.bluetoothStatus == DisconnectionDidEnd
    ensures r.tradeStatus == m.tradeStatus && r.posInstance == m.posInstance
  {
    SetConnected(m, false).(bluetoothStatus := DisconnectionDidEnd)
  }

  // ---------------------------------------------------------------------
  // The finder's delegate

  /** `didStartScanning`. */
  function OnDidStartScanning(m: Manager): (r: Manager)
    ensures r == m.(bluetoothStatus := DidStartScanning)
  {
    m.(bluetoothStatus := DidStartScanning)
  }

  /** `didStopScanning`: ignored once connected, so a connection's status is
      never overwritten by a scan's outcome. */
  function OnDidStopScanning(m: Manager, hasFoundDevice: bool): (r: Manager)
    ensures m.hasConnectedDevice ==> r == m
    ensures !m.hasConnectedDevice && hasFoundDevice ==> r == m.(bluetoothStatus := ScanDidFoundDevice)
    ensures !m.hasConnectedDevice && !hasFoundDevice ==> r == m.(bluetoothStatus := ScanDidNotFoundDevice)
  {
    if m.hasConnectedDevice then m
    else m.(bluetoothStatus := if hasFoundDevice then ScanDidFoundDevice else ScanDidNotFoundDevice)
  }

  /** A delegate notification, handled synchronously.  `didFindPOSDeviceName`
      connects at once. */
  function Notified(m: Manager, n: Finder.Notice): (o: Outcome)
    ensures o.manager == m.(bluetoothStatus := o.manager.bluetoothStatus)
    ensures n == Finder.DidStartScanning ==> o.manager.bluetoothStatus == DidStartScanning
    ensures n.DidStopScanning? && m.hasConnectedDevice ==> o.manager == m
    ensures n.DidStopScanning? && !m.hasConnectedDevice ==>
      o.manager.bluetoothStatus == (if n.hasFoundDevice then ScanDidFoundDevice else ScanDidNotFoundDevice)
    ensures n.DidFindPOSDeviceName? ==> o.manager.bluetoothStatus == ConnectingDevice
    ensures n.DidFindPOSDeviceName? ==>
      o.trace == Issue(m, [SetDelegate, SetPosType(Bluetooth2Mode), SetDefaultQueue,
                           ConnectBT(n.deviceName), SetBTAutoDetecting(true)])
    ensures !n.DidFindPOSDeviceName? ==> o.trace == []
  {
    match n
    case DidStartScanning => Outcome(OnDidStartScanning(m), [])
    case DidStopScanning(found) => Outcome(OnDidStopScanning(m, found), [])
    case DidFindPOSDeviceName(name) => ConnectBluetoothDevice(m, name)
  }

  /** Replays what the finder did: its SDK calls go to the trace, its
      notifications re-enter the manager, in the order the finder made them. */
  function Deliver(m: Manager, effects: seq<Finder.Effect>): (o: Outcome)
    ensures o.manager == m.(bluetoothStatus := o.manager.bluetoothStatus)
    decreases |effects|
  {
    if effects == [] then Outcome(m, [])
    else
      var first := DeliverOne(m, effects[0]);
      var rest := Deliver(first.manager, effects[1..]);
      Outcome(rest.manager, first.trace + rest.trace)
  }

  function DeliverOne(m: Manager, effect: Finder.Effect): (o: Outcome)
    ensures o.manager == m.(bluetoothStatus := o.manager.bluetoothStatus)
    ensures effect.Call? ==> o == Outcome(m, [effect.command])
  {
    match effect
    case Call(c) => Outcome(m, [c])
    case Notify(n) => Notified(m, n)
  }

  lemma {:induction false} DeliverConcat(m: Manager, a: seq<Finder.Effect>, b: seq<Finder.Effect>)
    ensures Deliver(m, a + b).manager == Deliver(Deliver(m, a).manager, b).manager
    ensures Deliver(m, a + b).trace == Deliver(m, a).trace + Deliver(Deliver(m, a).manager, b).trace
    decreases |a|
  {
    if a == [] {
      assert a + b == b;
    } else {
      assert (a + b)[0] == a[0];
      assert (a + b)[1..] == a[1..] + b;
      var first := DeliverOne(m, a[0]);
      var tail := Deliver(first.manager, a[1..]);
      DeliverConcat(first.manager, a[1..], b);
      assert Deliver(m, a) == Outcome(tail.manager, first.trace + tail.trace);
    }
  }

  /** Effects with no notice only pass their calls through, in order. */
  lemma {:induction false} DeliverCallsOnly(m: Manager, effects: seq<Finder.Effect>)
    requires Finder.Notices(effects) == []
    ensures Deliver(m, effects) == Outcome(m, Finder.Calls(effects))
    decreases |effects|
  {
    if effects != [] {
      assert effects[0].Call?;
      assert Finder.Notices(effects[1..]) == [];
      DeliverCallsOnly(m, effects[1..]);
    }
  }

  lemma DeliverCall(m: Manager, c: Command)
    ensures Deliver(m, [Finder.Call(c)]) == Outcome(m, [c])
  {
  }

  lemma DeliverNotify(m: Manager, n: Finder.Notice)
    ensures Deliver(m, [Finder.Notify(n)]) == Notified(m, n)
  {
  }

  lemma DeliverStop(m: Manager)
    ensures Deliver(m, Finder.StopScan(m.finder).effects) == Outcome(m, [StopQPos2Mode, SetBluetoothDelegate2Mode(false)])
  {
  }

  // ---------------------------------------------------------------------
  // Scanning

  /** `startScanning`: nothing at all once connected; otherwise the finder's
      `startScan`, whose "started" notice sets the status. */
  function StartScanning(m: Manager, interval: real): (o: Outcome)
    ensures m.hasConnectedDevice ==> o == Outcome(m, [])
    ensures !m.hasConnectedDevice ==>
      && o.manager == m.(bluetoothStatus := DidStartScanning)
      && o.trace == [SetBluetoothDelegate2Mode(true), ScanQPos2Mode(Finder.Truncate(interval))]
  {
    if m.hasConnectedDevice then Outcome(m, [])
    else
      var s := Finder.StartScan(m.finder, interval);
      var e := s.effects;
      assert e == [e[0]] + [e[1]] + [e[2]];
      DeliverConcat(m, [e[0]] + [e[1]], [e[2]]);
      DeliverConcat(m, [e[0]], [e[1]]);
      DeliverCall(m, e[0].command);
      DeliverCall(m, e[1].command);
      DeliverNotify(m, Finder.DidStartScanning);
      Deliver(m.(finder := s.finder), s.effects)
  }

  /** The finder's `stopScan` or `finishScanQPos2Mode`: two calls, no state. */
  function StopScanning(m: Manager): (o: Outcome)
    ensures o == Outcome(m, [StopQPos2Mode, SetBluetoothDelegate2Mode(false)])
  {
    DeliverStop(m);
    var s := Finder.StopScan(m.finder);
    Deliver(m.(finder := s.finder), s.effects)
  }

  /** The scan's deferred timeout, fired: stops the scan; the finder reports
      "not found" only while its flag is down, and the manager heeds that only
      while not connected. */
  function ScanTimedOut(m: Manager): (o: Outcome)
    ensures o.trace == [StopQPos2Mode, SetBluetoothDelegate2Mode(false)]
    ensures m.finder.didFoundDevice ==> o.manager == m
    ensures !m.finder.didFoundDevice ==> o.manager == OnDidStopScanning(m, false)
  {
    var s := Finder.Timeout(m.finder);
    var stop := Finder.StopScan(m.finder).effects;
    var extra: seq<Finder.Effect> := if !m.finder.didFoundDevice then [Finder.Notify(Finder.DidStopScanning(false))] else [];
    assert s.effects == stop + extra;
    DeliverConcat(m, stop, extra);
    DeliverStop(m);
    DeliverNotify(m, Finder.DidStopScanning(false));
    assert Deliver(m, []) == Outcome(m, []);
    Deliver(m.(finder := s.finder), s.effects)
  }

  /** A name reported by the scan.  A POS name stops the scan, raises the
      finder's flag, and re-enters the manager twice: "stopped, found" (heeded
      only while not connected), then the name, which starts a connection. */
  function NameDiscovered(m: Manager, name: Option<string>): (o: Outcome)
    ensures Finder.Ignored(name) ==> o == Outcome(m, [])
    ensures !Finder.Ignored(name) ==>
      && o.manager == m.(finder := Finder.Finder(true), bluetoothStatus := ConnectingDevice)
      && o.trace == [StopQPos2Mode, SetBluetoothDelegate2Mode(false)]
                    + Issue(m, [SetDelegate, SetPosType(Bluetooth2Mode), SetDefaultQueue,
                                ConnectBT(name.value), SetBTAutoDetecting(true)])
  {
    var s := Finder.OnBluetoothName(m.finder, name);
    if Finder.Ignored(name) then
      assert Deliver(m, []) == Outcome(m, []);
      Deliver(m.(finder := s.finder), s.effects)
    else
      var m1 := m.(finder := s.finder);
      var stop := Finder.StopScan(m.finder).effects;
      var a := [Finder.Notify(Finder.DidStopScanning(true))];
      var b := [Finder.Notify(Finder.DidFindPOSDeviceName(name.value))];
      assert s.effects == stop + a + b;
      DeliverConcat(m1, stop + a, b);
      DeliverConcat(m1, stop, a);
      DeliverStop(m1);
      DeliverNotify(m1, Finder.DidStopScanning(true));
      DeliverNotify(OnDidStopScanning(m1, true), Finder.DidFindPOSDeviceName(name.value));
      Deliver(m1, s.effects)
  }

  // ---------------------------------------------------------------------
  // Trade

  /** `onRequestWaitingUser`: the terminal waits for the card. */
  function OnRequestWaitingUser(m: Manager): (r: Manager)
    ensures r == m.(tradeStatus := AwaitingUserCardAction)
  {
    m.(tradeStatus := AwaitingUserCardAction)
  }

  /** `onDHError`: the two timeout kinds time the trade out, anything else
      fails it. */
  function ErrorStatus(e: DHError): (s: TradeStatus)
    ensures s == TradeDidTimeout <==> (e == Timeout || e == CmdTimeout)
    ensures s == TradeDidFail <==> !(e == Timeout || e == CmdTimeout)
  {
    if e == Timeout || e == CmdTimeout then TradeDidTimeout else TradeDidFail
  }

  /** `onDoTradeResult`: chip completes an inserted trade, contactless-online
      with an all-string dictionary completes a tapped trade, everything else
      (including contactless-online with no dictionary or a non-string one)
      fails. */
  function TradeResultStatus(result: DoTradeResult, decodeData: Option<DecodeData>): (s: TradeStatus)
    ensures s == DidCompleteInsertTrade <==> result == Icc
    ensures s == DidCompleteTapTrade <==> result == NfcOnline && decodeData.Some? && IsStringDictionary(decodeData.value)
    ensures s in {DidCompleteInsertTrade, DidCompleteTapTrade, TradeDidFail}
  {
    if result == Icc then DidCompleteInsertTrade
    else if result == NfcOnline && decodeData.Some? && IsStringDictionary(decodeData.value) then DidCompleteTapTrade
    else TradeDidFail
  }

  /** `onRequestOnlineProcess`: a missing TLV fails the trade, any TLV at all
      completes it as an inserted trade. */
  function OnlineProcessStatus(tlv: Option<string>): (s: TradeStatus)
    ensures s == TradeDidFail <==> tlv.None?
    ensures s == DidCompleteInsertTrade <==> tlv.Some?
  {
    match tlv
    case None => TradeDidFail
    case Some(_) => DidCompleteInsertTrade
  }

  /** `onDHError` as a step: only the trade status moves, to the timeout
      status exactly for the two timeout kinds and to failure otherwise. */
  function OnDHError(m: Manager, err: DHError): (r: Manager)
    ensures r == m.(tradeStatus := r.tradeStatus)
    ensures r.tradeStatus == TradeDidTimeout <==> (err == Timeout || err == CmdTimeout)
    ensures r.tradeStatus == TradeDidFail <==> !(err == Timeout || err == CmdTimeout)
  {
    m.(tradeStatus := ErrorStatus(err))
  }

  /** `onDoTradeResult` as a step: only the trade status moves, to the
      outcome the result and its decoded data classify. */
  function OnDoTradeResult(m: Manager, result: DoTradeResult, decodeData: Option<DecodeData>): (r: Manager)
    ensures r == m.(tradeStatus := r.tradeStatus)
    ensures r.tradeStatus == DidCompleteInsertTrade <==> result == Icc
    ensures r.tradeStatus == DidCompleteTapTrade <==>
      result == NfcOnline && decodeData.Some? && IsStringDictionary(decodeData.value)
    ensures r.tradeStatus == TradeDidFail <==>
      result != Icc && !(result == NfcOnline && decodeData.Some? && IsStringDictionary(decodeData.value))
  {
    m.(tradeStatus := TradeResultStatus(result, decodeData))
  }

  /** `onRequestOnlineProcess` as a step: only the trade status moves, to
      failure without a TLV and to a completed inserted trade with one. */
  function OnRequestOnlineProcess(m: Manager, tlv: Option<string>): (r: Manager)
    ensures r == m.(tradeStatus := r.tradeStatus)
    ensures r.tradeStatus == TradeDidFail <==> tlv.None?
    ensures r.tradeStatus == DidCompleteInsertTrade <==> tlv.Some?
  {
    m.(tradeStatus := OnlineProcessStatus(tlv))
  }

  /** `startTrade`: send the amount (in minor units), the currency and the
      transaction type, then the card mode, then start.  No status moves and
      the connection is not consulted. */
  function StartTrade(m: Manager, data: TradeData): (o: Outcome)
    ensures o.manager == m
    ensures m.posInstance ==>
      && |o.trace| == 3
      && o.trace[0].SetAmount?
      && o.trace[0].amount == Amount.AmountString(data.amountCents)
      && Amount.AllDigits(o.trace[0].amount)
      && Amount.ParseDigits(o.trace[0].amount) == Amount.Abs(data.amountCents)
      && o.trace[0].description == ""
      && o.trace[0].currency == data.currencyCode
      && o.trace[0].transactionType == data.transactionType
      && o.trace[1] == SetCardTradeMode(data.tradeMode)
      && o.trace[2] == DoTrade
    ensures !m.posInstance ==> o.trace == []
  {
    Amount.AmountStringDenotesCents(data.amountCents);
    Outcome(m, Issue(m, [SetAmount(Amount.AmountString(data.amountCents), "", data.currencyCode, data.transactionType),
                         SetCardTradeMode(data.tradeMode),
                         DoTrade]))
  }

  /** `stopTrade`: a forced cancel, nothing else. */
  function StopTrade(m: Manager): (o: Outcome)
    ensures o.manager == m
    ensures o.trace == Issue(m, [CancelTrade(true)])
  {
    Outcome(m, Issue(m, [CancelTrade(true)]))
  }

  /** `onRequestTime`: the terminal's clock request is answered with the time
      string the caller supplies (the wall clock is outside the model). */
  function OnRequestTime(m: Manager, now: string): (o: Outcome)
    ensures o.manager == m
    ensures o.trace == Issue(m, [SendTime(now)])
  {
    Outcome(m, Issue(m, [SendTime(now)]))
  }

  /** `onRequestPinEntry`: the status passes through `awaitingUserPIN`, the
      PIN is bypassed, and the status ends at `didBypassPINEntry`. */
  function OnRequestPinEntry(m: Manager): (o: Outcome)
    ensures o.manager == m.(tradeStatus := DidBypassPINEntry)
    ensures o.trace == Issue(m, [BypassPinEntry])
  {
    var waiting := m.(tradeStatus := AwaitingUserPIN);
    Outcome(waiting.(tradeStatus := DidBypassPINEntry), Issue(m, [BypassPinEntry]))
  }

  // ---------------------------------------------------------------------
  // Dispatch

  /** The ways the manager is entered through its operations: its public
      methods, the finder's public stop, the scan timeout, and the SDK's
      callbacks.  Direct writes to the public status fields or to the
      finder's flag, and direct calls of the finder's `startScan` or of the
      delegate methods, are not events. */
  datatype Event =
    | ScanRequest(interval: real)
    | StopScanRequest
    | ScanTimeoutFired
    | NameReported(name: Option<string>)
    | ScanFinished
    | ConnectRequest(deviceName: string)
    | DisconnectRequest
    | QposConnected
    | NoQposDetected
    | QposDisconnected
    | TradeRequest(data: TradeData)
    | StopTradeRequest
    | TimeRequested(now: string)
    | WaitingUser
    | DeviceError(error: DHError)
    | PinEntryRequested
    | TradeResult(result: DoTradeResult, decodeData: Option<DecodeData>)
    | OnlineProcessRequested(tlv: Option<string>)

  predicate IsTradeEvent(e: Event)
  {
    e.TradeRequest? || e.StopTradeRequest? || e.TimeRequested? || e.WaitingUser? || e.DeviceError?
    || e.PinEntryRequested? || e.TradeResult? || e.OnlineProcessRequested?
  }

  function Handle(m: Manager, e: Event): Outcome
  {
    match e
    case ScanRequest(interval) => StartScanning(m, interval)
    case StopScanRequest => StopScanning(m)
    case ScanTimeoutFired => ScanTimedOut(m)
    case NameReported(name) => NameDiscovered(m, name)
    case ScanFinished => StopScanning(m)
    case ConnectRequest(name) => ConnectBluetoothDevice(m, name)
    case DisconnectRequest => DisconnectBluetoothDevice(m)
    case QposConnected => Outcome(OnRequestQposConnected(m), [])
    case NoQposDetected => Outcome(OnRequestNoQposDetected(m), [])
    case QposDisconnected => Outcome(OnRequestQposDisconnected(m), [])
    case TradeRequest(data) => StartTrade(m, data)
    case StopTradeRequest => StopTrade(m)
    case TimeRequested(now) => OnRequestTime(m, now)
    case WaitingUser => Outcome(OnRequestWaitingUser(m), [])
    case DeviceError(err) => Outcome(OnDHError(m, err), [])
    case PinEntryRequested => OnRequestPinEntry(m)
    case TradeResult(result, data) => Outcome(OnDoTradeResult(m, result, data), [])
    case OnlineProcessRequested(tlv) => Outcome(OnRequestOnlineProcess(m, tlv), [])
  }

  /** Events handled one after another; the model assumes they never
      overlap. */
  function Run(m: Manager, events: seq<Event>): Outcome
    decreases |events|
  {
    if events == [] then Outcome(m, [])
    else
      var first := Handle(m, events[0]);
      var rest := Run(first.manager, events[1..]);
      Outcome(rest.manager, first.trace + rest.trace)
  }
}

=== FILE: sdk.dfy ===
/** The vendor terminal SDK as the adapter sees it: a handful of enumerations
    it passes in and out, and the calls the adapter makes on it.  The SDK's own
    behaviour is out of reach; each call it receives is one `Command` appended
    to a trace, and each callback it makes is an input event of the adapter. */
module Sdk {

  datatype Option<+T> = None | Some(value: T)

  /** `PosType`: only the Bluetooth dual-mode transport is ever selected. */
  datatype PosType = Bluetooth2Mode | OtherPosType(code: int)

  /** `TransactionType` of a trade request. */
  datatype TransactionType = Goods | OtherTransaction(code: int)

  /** `CardTradeMode` of a trade request. */
  datatype CardTradeMode = OnlyInsertCard | OtherTradeMode(code: int)

  /** `DHError`: the two timeout kinds, and every other error code. */
  datatype DHError = Timeout | CmdTimeout | OtherError(code: int)

  /** `DoTradeResult`: chip, contactless-online, and every other result code. */
  datatype DoTradeResult = Icc | NfcOnline | OtherResult(code: int)

  /** A value of the untyped `[AnyHashable : Any]` decoded-data dictionary:
      either a string or something that is not a string. */
  datatype AnyValue = Str(text: string) | NonStr(tag: int)

  type DecodeData = map<AnyValue, AnyValue>

  /** Holds when the dictionary survives the cast `as? [String : String]`. */
  predicate IsStringDictionary(d: DecodeData)
  {
    forall k :: k in d ==> k.Str? && d[k].Str?
  }

  /** One call made on the SDK.  The first three go to the Bluetooth finder
      object (`BTDeviceFinder`), the rest to the terminal service
      (`QPOSService`). */
  datatype Command =
    | SetBluetoothDelegate2Mode(registered: bool)  // `self` or `nil`
    | ScanQPos2Mode(seconds: int)
    | StopQPos2Mode
    | SetDelegate
    | SetPosType(posType: PosType)
    | SetDefaultQueue                              // `setQueue(nil)`
    | ConnectBT(deviceName: string)
    | SetBTAutoDetecting(enabled: bool)
    | DisconnectBT
    | SetAmount(amount: string, description: string, currency: string, transactionType: TransactionType)
    | SetCardTradeMode(mode: CardTradeMode)
    | DoTrade
    | CancelTrade(force: bool)
    | BypassPinEntry
    | SendTime(time: string)

  /** The call protocol the adapter keeps at position `i` of a trace: a scan is
      always preceded by registering the finder as the Bluetooth delegate, a
      scan stop is always followed by unregistering it, a connect is always
      preceded by the delegate/transport/queue set-up and followed by enabling
      auto-detection, and an amount is always followed by the trade mode and
      the start of the trade. */
  predicate ProtocolAt(t: seq<Command>, i: int)
    requires 0 <= i < |t|
  {
    && (t[i].ScanQPos2Mode? ==> 1 <= i && t[i - 1] == SetBluetoothDelegate2Mode(true))
    && (t[i].StopQPos2Mode? ==> i + 1 < |t| && t[i + 1] == SetBluetoothDelegate2Mode(false))
    && (t[i].ConnectBT? ==>
          && 3 <= i && i + 1 < |t|
          && t[i - 3] == SetDelegate
          && t[i - 2] == SetPosType(Bluetooth2Mode)
          && t[i - 1] == SetDefaultQueue
          && t[i + 1] == SetBTAutoDetecting(true))
    && (t[i].SetAmount? ==> i + 2 < |t| && t[i + 1].SetCardTradeMode? && t[i + 2] == DoTrade)
  }

  predicate WellFormed(t: seq<Command>)
  {
    forall i | 0 <= i < |t| :: ProtocolAt(t, i)
  }

  /** The protocol is local to each operation's calls, so traces that keep it
      can be concatenated. */
  lemma WellFormedConcat(a: seq<Command>, b: seq<Command>)
    requires WellFormed(a) && WellFormed(b)
    ensures WellFormed(a + b)
  {
    var t := a + b;
    forall i | 0 <= i < |t|
      ensures ProtocolAt(t, i)
    {
      if i < |a| {
        assert ProtocolAt(a, i);
      } else {
        assert ProtocolAt(b, i - |a|);
      }
    }
  }
}

=== FILE: system.dfy ===
/** Properties of the manager over whole runs of events: what every step keeps,
    what each kind of event leaves alone, and the scenarios of a scan, a
    connection and a trade. */
module System {
  import opened Sdk
  import Finder
  import Amount
  import opened Manager

  // ---------------------------------------------------------------------
  // The flag mirror

  /** Every step keeps `hasConnectedDevice ==> finder.didFoundDevice`: the
      manager writes both together, and the finder only ever raises its flag. */
  lemma HandleKeepsMirror(m: Manager, e: Event)
    requires Mirrored(m)
    ensures Mirrored(Handle(m, e).manager)
  {
  }

  lemma {:induction false} RunKeepsMirror(m: Manager, events: seq<Event>)
    requires Mirrored(m)
    ensures Mirrored(Run(m, events).manager)
    decreases |events|
  {
    if events != [] {
      HandleKeepsMirror(m, events[0]);
      RunKeepsMirror(Handle(m, events[0]).manager, events[1..]);
    }
  }

  /** Only a disconnection lowers the finder's flag. */
  lemma FlagClearedOnlyByDisconnect(m: Manager, e: Event)
    requires m.finder.didFoundDevice
    requires !e.QposDisconnected?
    ensures Handle(m, e).manager.finder.didFoundDevice
  {
  }

  /** No run of events without a disconnection lowers a raised flag. */
  lemma {:induction false} RunWithoutDisconnectKeepsFlag(m: Manager, events: seq<Event>)
    requires m.finder.didFoundDevice
    requires forall i | 0 <= i < |events| :: !events[i].QposDisconnected?
    ensures Run(m, events).manager.finder.didFoundDevice
    decreases |events|
  {
    if events != [] {
      FlagClearedOnlyByDisconnect(m, events[0]);
      RunWithoutDisconnectKeepsFlag(Handle(m, events[0]).manager, events[1..]);
    }
  }

  /** Once a device has been found, every later scan timeout is silent until
      a disconnection: after any run of events without one, the timeout only
      stops the scan and leaves the manager, its status included, unchanged. */
  lemma StaleFlagSilencesEveryLaterTimeout(m: Manager, events: seq<Event>)
    requires m.finder.didFoundDevice
    requires forall i | 0 <= i < |events| :: !events[i].QposDisconnected?
    ensures Handle(Run(m, events).manager, ScanTimeoutFired).manager == Run(m, events).manager
    ensures Handle(Run(m, events).manager, ScanTimeoutFired).trace == [StopQPos2Mode, SetBluetoothDelegate2Mode(false)]
  {
    RunWithoutDisconnectKeepsFlag(m, events);
  }

  // ---------------------------------------------------------------------
  // The call protocol

  lemma WellFormedScan(n: int)
    ensures WellFormed([SetBluetoothDelegate2Mode(true), ScanQPos2Mode(n)])
  {
  }

  lemma WellFormedStop()
    ensures WellFormed([StopQPos2Mode, SetBluetoothDelegate2Mode(false)])
  {
  }

  lemma WellFormedConnect(m: Manager, name: string)
    ensures WellFormed(Issue(m, [SetDelegate, SetPosType(Bluetooth2Mode), SetDefaultQueue,
                                 ConnectBT(name), SetBTAutoDetecting(true)]))
  {
  }

  lemma WellFormedSingle(m: Manager, c: Command)
    requires !c.ScanQPos2Mode? && !c.StopQPos2Mode? && !c.ConnectBT? && !c.SetAmount?
    ensures WellFormed(Issue(m, [c]))
  {
  }

  lemma WellFormedTrade(m: Manager, data: TradeData)
    ensures WellFormed(StartTrade(m, data).trace)
  {
  }

  /** Each single step's trace keeps the call protocol. */
  lemma WellFormedLiteral(m: Manager, e: Event)
    ensures WellFormed(Handle(m, e).trace)
  {
    match e
    case ScanRequest(interval) =>
      WellFormedScan(Finder.Truncate(interval));
    case StopScanRequest =>
      WellFormedStop();
    case ScanTimeoutFired =>
      WellFormedStop();
    case NameReported(name) =>
      if !Finder.Ignored(name) {
        WellFormedStop();
        WellFormedConnect(m, name.value);
        WellFormedConcat([StopQPos2Mode, SetBluetoothDelegate2Mode(false)],
                         Issue(m, [SetDelegate, SetPosType(Bluetooth2Mode), SetDefaultQueue,
                                   ConnectBT(name.value), SetBTAutoDetecting(true)]));
      }
    case ScanFinished =>
      WellFormedStop();
    case ConnectRequest(name) =>
      WellFormedConnect(m, name);
    case DisconnectRequest =>
      WellFormedSingle(m, DisconnectBT);
    case TradeRequest(data) =>
      WellFormedTrade(m, data);
    case StopTradeRequest =>
      WellFormedSingle(m, CancelTrade(true));
    case TimeRequested(now) =>
      WellFormedSingle(m, SendTime(now));
    case PinEntryRequested =>
      WellFormedSingle(m, BypassPinEntry);
    case _ =>
  }

  /** Every trace the manager produces keeps the call protocol of
      `Sdk.WellFormed`, however the events are ordered. */
  lemma {:induction false} RunTraceWellFormed(m: Manager, events: seq<Event>)
    ensures WellFormed(Run(m, events).trace)
    decreases |events|
  {
    if events != [] {
      var first := Handle(m, events[0]);
      WellFormedLiteral(m, events[0]);
      RunTraceWellFormed(first.manager, events[1..]);
      WellFormedConcat(first.trace, Run(first.manager, events[1..]).trace);
    }
  }

  // ---------------------------------------------------------------------
  // Trade status

  /** The trade states no step ever leaves behind: the PIN request passes
      through `awaitingUserPIN` inside one step, and `userDidEnterPIN` and
      `didCancelPINEntry` are never assigned. */
  predicate Observable(s: TradeStatus)
  {
    s != AwaitingUserPIN && s != UserDidEnterPIN && s != DidCancelPINEntry
  }

  lemma HandleKeepsObservable(m: Manager, e: Event)
    requires Observable(m.tradeStatus)
    ensures Observable(Handle(m, e).manager.tradeStatus)
  {
  }

  lemma {:induction false} RunNeverShowsPinStates(m: Manager, events: seq<Event>)
    requires Observable(m.tradeStatus)
    ensures Observable(Run(m, events).manager.tradeStatus)
    decreases |events|
  {
    if events != [] {
      HandleKeepsObservable(m, events[0]);
      RunNeverShowsPinStates(Handle(m, events[0]).manager, events[1..]);
    }
  }

  /** Trade events touch only the trade status; everything else leaves it
      alone. */
  lemma TradeAndConnectionAreSeparate(m: Manager, e: Event)
    ensures IsTradeEvent(e) ==>
      Handle(m, e).manager == m.(tradeStatus := Handle(m, e).manager.tradeStatus)
    ensures !IsTradeEvent(e) ==> Handle(m, e).manager.tradeStatus == m.tradeStatus
  {
  }

  /** The status-only callbacks make no call on the SDK: in particular a chip
      result starts no EMV application and an online-process request is not
      answered. */
  lemma ClassifyingEventsIssueNoCalls(m: Manager, e: Event)
    requires e.WaitingUser? || e.DeviceError? || e.TradeResult? || e.OnlineProcessRequested?
    ensures Handle(m, e).trace == []
    ensures Handle(m, e).manager == m.(tradeStatus := Handle(m, e).manager.tradeStatus)
  {
  }

  /** A trade event sets the trade status regardless of what it was: there is
      no terminal state that later events respect. */
  lemma LateTradeEventsOverwrite(m: Manager, n: Manager, e: Event)
    requires IsTradeEvent(e) && !e.TradeRequest? && !e.StopTradeRequest? && !e.TimeRequested?
    ensures Handle(m, e).manager.tradeStatus == Handle(n, e).manager.tradeStatus
  {
  }

  // ---------------------------------------------------------------------
  // Scanning while connected

  /** Once connected, a scan request does nothing at all and a scan's
      timeout only stops the SDK scan. */
  lemma ConnectedIgnoresScans(m: Manager, interval: real)
    requires m.hasConnectedDevice
    ensures Handle(m, ScanRequest(interval)) == Outcome(m, [])
    ensures Handle(m, ScanTimeoutFired).manager == m
  {
  }

  // ---------------------------------------------------------------------
  // Scenarios

  lemma RunTwo(m: Manager, a: Event, b: Event)
    ensures Run(m, [a, b]).manager == Handle(Handle(m, a).manager, b).manager
    ensures Run(m, [a, b]).trace == Handle(m, a).trace + Handle(Handle(m, a).manager, b).trace
  {
    assert [a, b][1..] == [b];
    assert [b][1..] == [];
    var m1 := Handle(m, a).manager;
    assert Run(m1, [b]) == Outcome(Handle(m1, b).manager, Handle(m1, b).trace + []);
  }

  /** A device found once whose connection then failed silences every later
      scan: the timeout no longer reports "not found", and the status stays at
      `didStartScanning` until a disconnection lowers the flag. */
  lemma StaleFlagKeepsScanning(m: Manager, interval: real)
    requires m.finder.didFoundDevice && !m.hasConnectedDevice
    ensures Run(m, [ScanRequest(interval), ScanTimeoutFired]).manager.bluetoothStatus == DidStartScanning
    ensures Run(m, [ScanRequest(interval), ScanTimeoutFired]).trace
         == [SetBluetoothDelegate2Mode(true), ScanQPos2Mode(Finder.Truncate(interval)),
             StopQPos2Mode, SetBluetoothDelegate2Mode(false)]
  {
    RunTwo(m, ScanRequest(interval), ScanTimeoutFired);
  }

  /** The whole story from a fresh manager: a POS name is found, the
      connection attempt fails, the first scan's timeout is silent because the
      name was found, and a second scan's timeout is silent too, so the status
      is left at `didStartScanning` and "not found" is never reported. */
  lemma ConnectionFailureSilencesLaterScans(p: bool)
    ensures
      var m1 := StartScanning(Init(p), 10.0).manager;
      var m2 := NameDiscovered(m1, Some("MPOS12345")).manager;
      var m3 := OnRequestNoQposDetected(m2);
      var m4 := ScanTimedOut(m3).manager;
      && m3.bluetoothStatus == UnableToConnectDevice
      && m4 == m3
      && Run(m4, [ScanRequest(10.0), ScanTimeoutFired]).manager.bluetoothStatus == DidStartScanning
  {
    assert Finder.IsPOSDeviceName("MPOS12345");
    var m1 := StartScanning(Init(p), 10.0).manager;
    var m2 := NameDiscovered(m1, Some("MPOS12345")).manager;
    assert m2.finder.didFoundDevice && !m2.hasConnectedDevice;
    var m3 := OnRequestNoQposDetected(m2);
    var m4 := ScanTimedOut(m3).manager;
    StaleFlagKeepsScanning(m4, 10.0);
  }

  /** A scan that finds nothing: the status ends at `scanDidNotFoundDevice`
      and no connection is made. */
  lemma ScanNotFound(p: bool)
    ensures Run(Init(p), [ScanRequest(10.0), ScanTimeoutFired]).manager.bluetoothStatus == ScanDidNotFoundDevice
    ensures !Run(Init(p), [ScanRequest(10.0), ScanTimeoutFired]).manager.hasConnectedDevice
  {
    RunTwo(Init(p), ScanRequest(10.0), ScanTimeoutFired);
  }

  /** A scan that finds "MPOS12345": the status goes to `connectingDevice`,
      then to `connectionDidSuccessfullyEnd` on the SDK's confirmation, and
      the timeout firing afterwards leaves it there. */
  lemma ScanFoundAndConnected(p: bool)
    ensures
      var m1 := StartScanning(Init(p), 10.0).manager;
      var m2 := NameDiscovered(m1, Some("MPOS12345")).manager;
      var m3 := OnRequestQposConnected(m2);
      var m4 := ScanTimedOut(m3).manager;
      && m1.bluetoothStatus == DidStartScanning
      && m2.bluetoothStatus == ConnectingDevice
      && m3.bluetoothStatus == ConnectionDidSuccessfullyEnd && m3.hasConnectedDevice
      && m4 == m3
  {
    assert Finder.IsPOSDeviceName("MPOS12345");
  }

  /** A trade on a freshly connected terminal: amount 10.00 in US dollars is
      sent as "1000"; a PIN request is bypassed; the chip result then completes
      the trade, and the connection is untouched throughout. */
  lemma InsertTradeWithPinBypass(m: Manager)
    requires m.posInstance
    ensures
      var m0 := OnRequestQposConnected(m);
      var o1 := StartTrade(m0, TradeData(1000, "840", Goods, OnlyInsertCard));
      var o2 := OnRequestPinEntry(o1.manager);
      var o3 := Handle(o2.manager, TradeResult(Icc, None));
      && o1.trace == [SetAmount("1000", "", "840", Goods), SetCardTradeMode(OnlyInsertCard), DoTrade]
      && o2.trace == [BypassPinEntry]
      && o2.manager.tradeStatus == DidBypassPINEntry
      && o3.trace == []
      && o3.manager.tradeStatus == DidCompleteInsertTrade
      && o3.manager.hasConnectedDevice
      && o3.manager.bluetoothStatus == ConnectionDidSuccessfullyEnd
  {
    var m0 := OnRequestQposConnected(m);
    StartTenDollars(m0);
    var o2 := OnRequestPinEntry(m0);
    assert o2.manager == m0.(tradeStatus := DidBypassPINEntry);
    var r := OnDoTradeResult(o2.manager, Icc, None);
    assert Handle(o2.manager, TradeResult(Icc, None)) == Outcome(r, []);
  }

  lemma StartTenDollars(m: Manager)
    requires m.posInstance
    ensures StartTrade(m, TradeData(1000, "840", Goods, OnlyInsertCard))
         == Outcome(m, [SetAmount("1000", "", "840", Goods), SetCardTradeMode(OnlyInsertCard), DoTrade])
  {
    Amount.AmountStringExamples();
  }
}
